=== FILE: README.md ===
# OptixScene host-side bookkeeping, in Dafny

This project models the host-side bookkeeping of `OptixScene` in
`source/gInteractiveOptix/optix_scene.cpp`. `OptixScene` builds the ray-tracing scene graph
for gvdb-voxels. The graph mixes triangle meshes with sparse voxel volumes: one
top-level group, and under it one Transform → GeometryGroup → GeometryInstance → Geometry
chain per mesh or volume.

Scene-graph nodes (the top-level group, and each subtree's geometry, instance,
group and transform), materials and volume samplers get opaque handles. A
handle is the index of the object's creation in the scene's object log, and
every `destroy` call is appended to a destroy log. Other OptiX objects are
carried as plain values or left out (see "Left out"). Each operation is a pure function from one
immutable `Scene` to the next.

- `types.dfy` (`OptixTypes`): bytes, handles, object kinds, and the opaque
  vector, matrix and parameter-block values. It also holds the fixed device-program bindings.
- `mesh_packing.dfy` (`MeshPacking`): the buffer packing of `AddPolygons`. The
  interleaved vertex buffer is de-interleaved by offset and stride. The flat
  index array is unpacked into triangles, whose triples double as normal and
  texcoord indices, and every triangle gets material index 0. There are two
  loop methods and reference sequence definitions, plus an unpacking round trip.
- `scene.dfy` (`SceneGraph`): the scene state and its transitions: the root state
  of `InitializeOptix`, `AddMaterial`, `SetMaterialParams`, `AddPolygons`,
  `AddVolume` and `ClearGraph`. It models the top-level group's child list
  (`setChildCount` resizes it, `setChild` fills a slot) and the single volume sampler.
- `scene_properties.dfy` (`SceneProperties`): properties that span several calls:
  - an invariant kept by every scene reachable from the root state;
  - slot assignment in call order;
  - `ClearGraph`'s teardown order and the state it leaves behind: stale slots,
    stale parameter blocks, and the surviving sampler;
  - the single live sampler.
- `output_copy.dfy` (`OutputCopy`): the output surface's size and the choices
  `ReadOutputTex` makes: the unpack alignment cascade and the texture-upload
  triple for each buffer format.

Three behaviours of the code that its method names do not suggest, all
modelled as written:

- `ClearGraph` empties the material list but never the parameter-block list.
  After a clear the two lists differ in length, and `SetMaterialParams(n)` publishes
  the block of the n-th material created before the clear (`StaleParamsAfterClear`,
  `StaleBlockReachable`).
- `ClearGraph` does not reset the top-level group. Its child count and slots still
  refer to destroyed transforms until the next add sets the count to 1
  (`ClearLeavesStaleSlots`, `ClearThenAdd`).
- An unsupported output format is not rejected: `ReadOutputTex` sets the
  alignment and uploads nothing, because its `switch` has no default.

## Model

| member | source | states |
|---|---|---|
| OptixTypes.ZeroBytes | source/gInteractiveOptix/optix_scene.cpp:209-210 | a fresh parameter block has exactly `sizeof(MaterialParams)` bytes, all zero |
| SceneGraph.Init | source/gInteractiveOptix/optix_scene.cpp:118-122 | the root state's object log holds only the top-level group (handle 0, live, nothing destroyed) with child count 0, no mesh or volume subtrees, no materials or parameter blocks, no sampler and nothing published as `volTexIn`; the parameter-block size is the one given |
| SceneGraph.ResizeChildren | source/gInteractiveOptix/optix_scene.cpp:350 | `setChildCount(n)` leaves exactly `n` slots: those below the old count keep their child and the rest are empty |
| SceneGraph.Attach | source/gInteractiveOptix/optix_scene.cpp:350-351 | attaching at `id` makes the child count `id+1` and puts the node in slot `id`; slots below `id` keep their child (empty if beyond the old count); nothing else in the scene changes |
| SceneGraph.AddMaterial | source/gInteractiveOptix/optix_scene.cpp:195-215 | appends exactly one material and one zeroed parameter block, and publishes that block on the new material; closest-hit (ray type 0) and any-hit (ray type 1) programs come from `<fname>.ptx`; returns the new material's index `|mats|-1`; the subtrees, slots and sampler are untouched |
| SceneGraph.WriteMaterialParams | source/gInteractiveOptix/optix_scene.cpp:224 | callers outside `optix_scene.cpp` fill stored block `n` in place; line 224 is where that filled block is then published. The fill replaces exactly block `n`; the materials, which still publish their last block, and the rest of the scene are unchanged |
| SceneGraph.SetMaterialParams | source/gInteractiveOptix/optix_scene.cpp:217-225 | for an index `n` in range, material `n` now publishes stored block `n` and keeps its handle and both programs; every other material and every other part of the scene is unchanged |
| SceneGraph.AddPolygons | source/gInteractiveOptix/optix_scene.cpp:227-354 | creates four fresh handles (geometry, instance, group, transform); the geometry has `elemCount` primitives, the mesh programs and the packed buffers; binds `mats[matId]`; the acceleration is marked dirty with no refit; attaches the transform at slot `|models|+|volumes|` with child count `id+1`; appends to the model list only; no other slot, list or sampler changes |
| SceneGraph.VolumeIntersectProgram | source/gInteractiveOptix/optix_scene.cpp:382-387 | `deep` selects the deep program; otherwise `lset` selects the level-set program; otherwise the surface program is used (each case as an if-and-only-if) |
| SceneGraph.AddVolume | source/gInteractiveOptix/optix_scene.cpp:364-453 | a volume subtree with one primitive, the flag-selected intersection program and the bounds program; the brick buffer is exactly `[vmin, vmax]`, `mat_id` is recorded and `mats[matId]` is bound; acceleration is dirty with refit; it attaches at slot `|models|+|volumes|`; the previous sampler, if any, is destroyed, and a new one over `atlas` is created and published as `volTexIn` |
| SceneGraph.TeardownSubtrees | source/gInteractiveOptix/optix_scene.cpp:165-185 | tearing down a subtree list makes exactly four destroy calls per subtree |
| SceneGraph.TeardownMaterials | source/gInteractiveOptix/optix_scene.cpp:187-188 | tearing down the material table makes one destroy call per material, destroying material k's handle k-th, in table order |
| SceneGraph.ClearGraph | source/gInteractiveOptix/optix_scene.cpp:163-191 | empties the mesh, volume and material lists and logs exactly the teardown destroys; the parameter blocks, the child list and the sampler are left as they were |
| MeshPacking.PackVertexBuffers | source/gInteractiveOptix/optix_scene.cpp:262-274 | position `i` is read at byte `i*vertStride + vertOffset` and normal `i` at `i*vertStride + normOffset`; every texcoord is (0,0); each buffer holds `vertCount` entries, matching the reference definitions |
| MeshPacking.PackTriangleBuffers | source/gInteractiveOptix/optix_scene.cpp:277-285 | triangle `i` is `(elem[3i], elem[3i+1], elem[3i+2])`, its normal indices equal its vertex indices, and its material index is 0; each buffer holds `elemCount` entries |
| MeshPacking.TriangleUnpackRoundTrip | source/gInteractiveOptix/optix_scene.cpp:277-283 | flattening the unpacked triangles gives back exactly the first `3*elemCount` entries of the index array |
| MeshPacking.PackMeshShape | source/gInteractiveOptix/optix_scene.cpp:303-310 | the mesh node's per-vertex buffers have `vertCount` entries and its per-triangle buffers `elemCount`; the normal and texcoord index buffers are the vertex index buffer; every material index is 0; the vertex indices flatten back to the index array |
| SceneProperties.InitInv | source/gInteractiveOptix/optix_scene.cpp:118-122 | the root state satisfies the scene invariant and has no live sampler |
| SceneProperties.AddMaterialInv | source/gInteractiveOptix/optix_scene.cpp:195-215 | `AddMaterial` preserves the invariant |
| SceneProperties.SetMaterialParamsInv | source/gInteractiveOptix/optix_scene.cpp:217-225 | `SetMaterialParams` preserves the invariant |
| SceneProperties.AddPolygonsInv | source/gInteractiveOptix/optix_scene.cpp:227-354 | `AddPolygons` preserves the invariant |
| SceneProperties.AddVolumeInv | source/gInteractiveOptix/optix_scene.cpp:364-453 | `AddVolume` preserves the invariant, including "only the current sampler is live" |
| SceneProperties.ClearGraphInv | source/gInteractiveOptix/optix_scene.cpp:163-191 | `ClearGraph` preserves the invariant: it destroys only created, non-sampler objects |
| SceneProperties.ReachableInv | source/gInteractiveOptix/optix_scene.cpp:163-453 | every scene reachable from the root state by any sequence of enabled calls has live, correctly typed subtrees and materials, never has more materials than parameter blocks, and has at most one live sampler, the current one |
| SceneProperties.ReachableSlots | source/gInteractiveOptix/optix_scene.cpp:163-453 | in every scene reachable from the root state by enabled calls, once there is a subtree the child count equals the number of subtrees, and every slot below it refers to a live transform node; a clear leaves no subtrees, so its stale slots are never counted |
| SceneProperties.LockstepUntilClear | source/gInteractiveOptix/optix_scene.cpp:206-211 | calls with no `ClearGraph` among them keep the material list and the parameter list the same length |
| SceneProperties.StaleParamsAfterClear | source/gInteractiveOptix/optix_scene.cpp:187-224 | after a clear the lists are no longer the same length; the next material gets index 0, but its zeroed block lands at the old end of the parameter list, and `SetMaterialParams(0)` publishes the first block from before the clear |
| SceneProperties.WrittenBlockPublished | source/gInteractiveOptix/optix_scene.cpp:217-225 | after a caller writes block `n`, `SetMaterialParams(n)` publishes exactly that block on material `n` |
| SceneProperties.StaleBlockReachable | source/gInteractiveOptix/optix_scene.cpp:187-224 | from the root state, the run add material, write block 0, clear, add material, republish 0 is enabled, and the new material publishes the block written before the clear, while its own zeroed block sits unused at index 1 |
| SceneProperties.AddsFillSlotsInOrder | source/gInteractiveOptix/optix_scene.cpp:350-353 | after any run of adds, the child count is the number of subtrees, slot `NextSlot(s)+i` holds the transform the i-th add created (its handle, the fourth object that add creates, and its matrix), and the slots below the starting point are kept |
| SceneProperties.AddsFromEmpty | source/gInteractiveOptix/optix_scene.cpp:434-437 | from a scene with no subtrees and no children, N adds give child count N, and slot i holds the transform the i-th add created, by handle and matrix |
| SceneProperties.FirstAddUsesSlotZero | source/gInteractiveOptix/optix_scene.cpp:229 | with no subtrees, the next add puts the transform it creates (the new handle `|objects|+3`, a transform object) into slot 0 and sets the child count to 1, whatever the old count was |
| SceneProperties.ClearThenAdd | source/gInteractiveOptix/optix_scene.cpp:163-191 | after a clear (and a new material) the child list is still the old one; the next add then puts its new transform, a handle newer than every object of the cleared scene, in slot 0 and sets the child count to 1 |
| SceneProperties.ClearGraphOrder | source/gInteractiveOptix/optix_scene.cpp:165-190 | the clear destroys each mesh subtree in list order as geometry, instance, group, transform (children before parents), then each volume subtree the same way, then every material in table order |
| SceneProperties.ClearLeavesStaleSlots | source/gInteractiveOptix/optix_scene.cpp:163-191 | after a clear, the child count and every slot are unchanged, and a slot that held a subtree's transform now refers to a destroyed handle |
| SceneProperties.AddVolumeSingleSampler | source/gInteractiveOptix/optix_scene.cpp:440-452 | after `AddVolume` exactly one sampler is live; it is bound to the given atlas and published as `volTexIn`; the previous sampler is destroyed |
| SceneProperties.TwoVolumesOneSampler | source/gInteractiveOptix/optix_scene.cpp:439-444 | after two volumes only the second atlas's sampler is live, and the first one's sampler is destroyed |
| SceneProperties.ClearGraphKeepsSampler | source/gInteractiveOptix/optix_scene.cpp:163-191 | `ClearGraph` leaves the sampler and the set of live samplers as they were |
| OutputCopy.UnpackAlignment | source/gInteractiveOptix/optix_scene.cpp:549-553 | the alignment is one of 8, 4, 2, 1, divides the element size, and is the largest of those that does |
| OutputCopy.AlignmentIsCappedPowerOfTwo | source/gInteractiveOptix/optix_scene.cpp:550-553 | the cascade equals the independent definition "halve while even, at most three times", i.e. the largest power of two dividing the size, capped at 8 |
| OutputCopy.AlignmentExamples | source/gInteractiveOptix/optix_scene.cpp:550-553 | element sizes 16, 12, 8, 6, 4, 2, 1 get alignments 8, 4, 8, 2, 4, 2, 1 |
| OutputCopy.UploadFor | source/gInteractiveOptix/optix_scene.cpp:560-565 | an upload triple exists exactly for UBYTE4, FLOAT4, FLOAT3 and FLOAT: UBYTE4 → (RGBA8, BGRA, UNSIGNED_BYTE), FLOAT4 → (RGBA32F, RGBA, FLOAT), FLOAT3 → (RGB32F, RGB, FLOAT), FLOAT → (LUMINANCE32F, LUMINANCE, FLOAT) |
| OutputCopy.UploadMatchesElement | source/gInteractiveOptix/optix_scene.cpp:560-565 | every upload reads exactly one buffer element per pixel, with the buffer's channel count in both the pixel and the internal format, and reads floats exactly when the buffer holds floats |
| OutputCopy.ToGLsizei | source/gInteractiveOptix/optix_scene.cpp:558-559 | the `GLsizei` cast keeps a size below 2^31 and otherwise wraps it modulo 2^32 into the signed 32-bit range |
| OutputCopy.ReadOutputTex | source/gInteractiveOptix/optix_scene.cpp:538-568 | the copy sets the capped power-of-two alignment; it specifies an image exactly when the format has an upload triple, with that triple and the surface's width and height each passed through the `GLsizei` cast (unchanged below 2^31); any other format uploads nothing |
| OutputCopy.InitialSurfaceCopy | source/gInteractiveOptix/optix_scene.cpp:62 | the FLOAT3 surface created at initialisation is copied with alignment 4 as an RGB32F/RGB/FLOAT image, and the copy reads exactly the bytes the surface holds |

## Left out

- Context creation and configuration: entry-point and ray-type counts, stack size, the epsilon, and the ray-generation, exception and miss programs (lines 53-75). These are foreign library calls that do no bookkeeping.
- Acceleration builder, traverser and buffer-name strings (lines 330-340, 413-424). Each subtree records only the refit flag and the dirty mark.
- PTX program loading, `ValidateGraph`, `Launch` and every fatal `nverror` path. These are foreign calls, process abort and GPU synchronisation. Program loading is assumed to succeed, and a program is named by its file and entry.
- The random seed buffer (lines 90-96): it draws from `rand()` and is not meant to be deterministic.
- The frame-parameter setters `SetCamera`, `SetLight` and `SetVolumeParams`, which publish floating-point values, and `SetSample` and `SetShading`, which publish unsigned integers. All five are trivial publishes with no bookkeeping.
- `SetTransferFunc` and `AssignGVDB`: raw memory copies of opaque blobs.
- The transform matrix contents and the float values of vertices, normals and bricks. These are carried as opaque byte values.
- OpenGL and OptiX side effects: GL buffer creation, map and unmap, texture and buffer binding, `glTexImage2D` itself, and the sampler's wrap, filter, index and read modes. `OutputCopy` records only what the copy chooses.
- The class's header is not part of this model. It defines `sizeof(MaterialParams)`, which is a parameter of the root state (`paramsSize`). Callers fill a stored parameter block in place through code outside `optix_scene.cpp`; that fill is modelled as `SceneGraph.WriteMaterialParams`, and the `WriteParamsOp` step of an operation run.
- Lifetimes of the OptiX objects that get no handle: the six per-mesh buffers (lines 237-258), the brick buffer (line 392), the acceleration objects (lines 120, 334, 417) and the two programs each `AddMaterial` creates (lines 202-203). They are carried as values (`MeshBuffers`, the bricks, `Accel`, `ProgramRef`) or omitted. The model therefore cannot say that `ClearGraph` leaves them undestroyed, which it does.
- Integer widths of counts: `int` casts of list sizes and of `vertCount`/`elemCount` are not modelled. A negative or overflowing count cannot arise from the sequences modelled here.
- Out-of-range `mat_id` or `n`, and a vertex buffer that the stride and offsets overrun, are undefined behaviour in the code. They are preconditions of the model, not error results.
- SceneGraph.TeardownSubtrees: its own contract states only the number of destroy calls. The per-subtree order is stated by `SceneProperties.ClearGraphOrder`.

=== FILE: mesh_packing.dfy ===
/**
 Mesh buffer packing for `OptixScene::AddPolygons`: the interleaved vertex
 buffer is split into position, normal and texcoord buffers, and the flat
 triangle index array into per-triangle vertex, normal and material indices.
 */
module MeshPacking {
  import opened OptixTypes

  /** The host-side mesh a caller hands to `AddPolygons`: an interleaved
      vertex buffer with byte offsets of the position and normal inside each
      vertex record, the record stride, and a flat triangle index array. */
  datatype MeshModel = MeshModel(
    vertCount: nat,
    elemCount: nat,
    vertBuffer: seq<byte>,
    vertOffset: nat,
    normOffset: nat,
    vertStride: nat,
    elemBuffer: seq<int>)

  /** The buffers of one mesh geometry node. `tindex` is bound to the very
      same buffer as `nindex`. */
  datatype MeshBuffers = MeshBuffers(
    vertices: seq<Float3>,
    normals: seq<Float3>,
    texcoords: seq<Float2>,
    vindex: seq<Int3>,
    nindex: seq<Int3>,
    tindex: seq<Int3>,
    mindex: seq<nat>)

  /** The `float3` whose 12 bytes start at byte `at` of `buf`. */
  function ReadFloat3(buf: seq<byte>, at: nat): (v: Float3)
    requires at + 12 <= |buf|
    ensures |v.raw| == 12
    ensures forall k :: 0 <= k < 12 ==> v.raw[k] == buf[at + k]
  {
    Float3(buf[at..at + 12])
  }

  /** Every position and normal read of the vertex loop stays inside the
      vertex buffer. */
  predicate VertexReadsInBounds(m: MeshModel) {
    forall i :: 0 <= i < m.vertCount ==>
      && i * m.vertStride + m.vertOffset + 12 <= |m.vertBuffer|
      && i * m.vertStride + m.normOffset + 12 <= |m.vertBuffer|
  }

  /** Every read of the triangle loop stays inside the index array. */
  predicate ElementReadsInBounds(m: MeshModel) {
    3 * m.elemCount <= |m.elemBuffer|
  }

  predicate WellFormed(m: MeshModel) {
    VertexReadsInBounds(m) && ElementReadsInBounds(m)
  }

  /** Reference definitions of the packed buffers, one entry at a time. */

  function Positions(m: MeshModel): seq<Float3>
    requires VertexReadsInBounds(m)
  {
    seq(m.vertCount, i requires 0 <= i < m.vertCount =>
      ReadFloat3(m.vertBuffer, i * m.vertStride + m.vertOffset))
  }

  function Normals(m: MeshModel): seq<Float3>
    requires VertexReadsInBounds(m)
  {
    seq(m.vertCount, i requires 0 <= i < m.vertCount =>
      ReadFloat3(m.vertBuffer, i * m.vertStride + m.normOffset))
  }

  function Texcoords(m: MeshModel): seq<Float2> {
    seq(m.vertCount, _ => ZeroTexcoord)
  }

  function Triangles(m: MeshModel): seq<Int3>
    requires ElementReadsInBounds(m)
  {
    seq(m.elemCount, i requires 0 <= i < m.elemCount =>
      Int3(m.elemBuffer[3 * i], m.elemBuffer[3 * i + 1], m.elemBuffer[3 * i + 2]))
  }

  function ZeroMaterialIndices(n: nat): seq<nat> {
    seq(n, _ => 0)
  }

  /** All buffers of the mesh geometry node `AddPolygons` builds. */
  function PackMesh(m: MeshModel): (b: MeshBuffers)
    requires WellFormed(m)
  {
    var tris := Triangles(m);
    MeshBuffers(Positions(m), Normals(m), Texcoords(m), tris, tris, tris,
                ZeroMaterialIndices(m.elemCount))
  }

  /** The vertex loop: a byte cursor walks the interleaved buffer one stride
      per vertex; position and normal are read at their offsets from it, and
      every texcoord is (0,0). */
  method PackVertexBuffers(m: MeshModel) returns (v: seq<Float3>, n: seq<Float3>, t: seq<Float2>)
    requires VertexReadsInBounds(m)
    ensures |v| == m.vertCount && |n| == m.vertCount && |t| == m.vertCount
    ensures forall i :: 0 <= i < m.vertCount ==>
      && v[i] == ReadFloat3(m.vertBuffer, i * m.vertStride + m.vertOffset)
      && n[i] == ReadFloat3(m.vertBuffer, i * m.vertStride + m.normOffset)
      && t[i] == ZeroTexcoord
    ensures v == Positions(m) && n == Normals(m) && t == Texcoords(m)
  {
    v, n, t := [], [], [];
    var cursor: nat := 0;
    var i: nat := 0;
    while i < m.vertCount
      invariant i <= m.vertCount
      invariant cursor == i * m.vertStride
      invariant |v| == i && |n| == i && |t| == i
      invariant forall k :: 0 <= k < i ==>
        && v[k] == ReadFloat3(m.vertBuffer, k * m.vertStride + m.vertOffset)
        && n[k] == ReadFloat3(m.vertBuffer, k * m.vertStride + m.normOffset)
        && t[k] == ZeroTexcoord
    {
      v := v + [ReadFloat3(m.vertBuffer, cursor + m.vertOffset)];
      n := n + [ReadFloat3(m.vertBuffer, cursor + m.normOffset)];
      t := t + [ZeroTexcoord];
      cursor := cursor + m.vertStride;
      i := i + 1;
    }
  }

  /** The triangle loop: triangle `i` is elements `3i`, `3i+1`, `3i+2`; the
      normal indices repeat the vertex indices and every material index is 0. */
  method PackTriangleBuffers(m: MeshModel) returns (vi: seq<Int3>, ni: seq<Int3>, mi: seq<nat>)
    requires ElementReadsInBounds(m)
    ensures |vi| == m.elemCount && |ni| == m.elemCount && |mi| == m.elemCount
    ensures forall i :: 0 <= i < m.elemCount ==>
      && vi[i] == Int3(m.elemBuffer[3 * i], m.elemBuffer[3 * i + 1], m.elemBuffer[3 * i + 2])
      && ni[i] == vi[i]
      && mi[i] == 0
    ensures vi == Triangles(m) && ni == vi && mi == ZeroMaterialIndices(m.elemCount)
  {
    vi, ni, mi := [], [], [];
    var i: nat := 0;
    while i < m.elemCount
      invariant i <= m.elemCount
      invariant |vi| == i && |ni| == i && |mi| == i
      invariant forall k :: 0 <= k < i ==>
        && vi[k] == Int3(m.elemBuffer[3 * k], m.elemBuffer[3 * k + 1], m.elemBuffer[3 * k + 2])
        && ni[k] == vi[k]
        && mi[k] == 0
    {
      var tri := Int3(m.elemBuffer[3 * i], m.elemBuffer[3 * i + 1], m.elemBuffer[3 * i + 2]);
      vi := vi + [tri];
      ni := ni + [tri];
      mi := mi + [0];
      i := i + 1;
    }
  }

  /** Laying the triples out flat again. */
  function Flatten(ts: seq<Int3>): (r: seq<int>)
    ensures |r| == 3 * |ts|
  {
    if |ts| == 0 then [] else [ts[0].x, ts[0].y, ts[0].z] + Flatten(ts[1..])
  }

  lemma {:induction false} FlattenIndex(ts: seq<Int3>, i: nat)
    requires i < |ts|
    ensures Flatten(ts)[3 * i] == ts[i].x
    ensures Flatten(ts)[3 * i + 1] == ts[i].y
    ensures Flatten(ts)[3 * i + 2] == ts[i].z
  {
    if i > 0 {
      FlattenIndex(ts[1..], i - 1);
    }
  }

  /** Unpacking loses nothing: flattening the triangle buffer gives back the
      prefix of the index array that the triangles cover. */
  lemma TriangleUnpackRoundTrip(m: MeshModel)
    requires ElementReadsInBounds(m)
    ensures Flatten(Triangles(m)) == m.elemBuffer[..3 * m.elemCount]
  {
    var tris := Triangles(m);
    var f := Flatten(tris);
    forall j | 0 <= j < 3 * m.elemCount
      ensures f[j] == m.elemBuffer[j]
    {
      var i := j / 3;
      FlattenIndex(tris, i);
    }
  }

  /** The packed node: each per-vertex buffer has one entry per vertex and
      each per-triangle buffer one per triangle; normal and texcoord index
      buffers repeat the vertex indices, and every triangle uses material 0
      (the one material of its instance). */
  lemma PackMeshShape(m: MeshModel)
    requires WellFormed(m)
    ensures var b := PackMesh(m);
      && |b.vertices| == m.vertCount && |b.normals| == m.vertCount && |b.texcoords| == m.vertCount
      && |b.vindex| == m.elemCount && |b.mindex| == m.elemCount
      && b.nindex == b.vindex && b.tindex == b.vindex
      && (forall i :: 0 <= i < m.elemCount ==> b.mindex[i] == 0)
      && Flatten(b.vindex) == m.elemBuffer[..3 * m.elemCount]
  {
    TriangleUnpackRoundTrip(m);
  }
}

=== FILE: output_copy.dfy ===
/**
 The output surface and its copy into a display texture: `CreateOutputOptix`
 allocates a pixel buffer of `element size × width × height` bytes, and
 `ReadOutputTex` picks the unpack alignment from the element size and the
 texture upload triple from the element format.
 */
module OutputCopy {
  import opened OptixTypes

  /** The component type of a buffer format. */
  datatype Component = Int8 | UInt8 | Int16 | UInt16 | Int32 | UInt32 | Float32

  /** The number of components of a vector format. */
  type ChannelCount = n: nat | 1 <= n <= 4 witness 1

  /** A buffer element format: a vector of 1 to 4 components, or a user
      format whose element size is set explicitly. */
  datatype RtFormat =
    | Vector(component: Component, channels: ChannelCount)
    | User(size: nat)

  const Float3Format := Vector(Float32, 3)
  const Float4Format := Vector(Float32, 4)
  const FloatFormat := Vector(Float32, 1)
  const UByte4Format := Vector(UInt8, 4)

  function ComponentSize(c: Component): nat {
    match c
    case Int8 => 1
    case UInt8 => 1
    case Int16 => 2
    case UInt16 => 2
    case Int32 => 4
    case UInt32 => 4
    case Float32 => 4
  }

  /** Bytes per element of a format. */
  function ElementSize(f: RtFormat): nat {
    match f
    case Vector(c, n) => ComponentSize(c) * n
    case User(size) => size
  }

  /** An output buffer as created over a shared pixel buffer. */
  datatype OutputBuffer = OutputBuffer(format: RtFormat, width: nat, height: nat, bytes: nat)

  /** `CreateOutputOptix`: the backing pixel buffer holds one element per pixel. */
  function CreateOutput(format: RtFormat, width: nat, height: nat): (b: OutputBuffer)
    ensures b.format == format && b.width == width && b.height == height
    ensures b.bytes == ElementSize(format) * width * height
  {
    OutputBuffer(format, width, height, ElementSize(format) * width * height)
  }

  // ------------------------------------------------------------ alignment

  /** The unpack alignment: the first of 8, 4, 2, 1 that divides the element
      size. */
  function UnpackAlignment(elementSize: nat): (a: nat)
    ensures a == 8 || a == 4 || a == 2 || a == 1
    ensures elementSize % a == 0
    ensures a < 8 ==> elementSize % (2 * a) != 0
  {
    if elementSize % 8 == 0 then 8
    else if elementSize % 4 == 0 then 4
    else if elementSize % 2 == 0 then 2
    else 1
  }

  /** An independent reference: halve while the size is even, at most
      `halvings` times, doubling the alignment each time. */
  function HalvingAlignment(elementSize: nat, halvings: nat): (a: nat)
    ensures a >= 1
  {
    if halvings == 0 || elementSize % 2 == 1 then 1
    else 2 * HalvingAlignment(elementSize / 2, halvings - 1)
  }

  /** The cascade 8, 4, 2, 1 is the halving definition with at most three
      halvings: the largest power of two dividing the size, capped at 8. */
  lemma {:induction false} AlignmentIsCappedPowerOfTwo(elementSize: nat)
    ensures UnpackAlignment(elementSize) == HalvingAlignment(elementSize, 3)
  {
    var h1 := elementSize / 2;
    var h2 := h1 / 2;
    if elementSize % 2 == 0 {
      assert elementSize % 4 == 0 <==> h1 % 2 == 0;
      if h1 % 2 == 0 {
        assert elementSize % 8 == 0 <==> h2 % 2 == 0;
        assert HalvingAlignment(h1, 2) == 2 * HalvingAlignment(h2, 1);
      }
    }
  }

  /** The cascade on the element sizes of the common formats. */
  lemma AlignmentExamples()
    ensures UnpackAlignment(16) == 8
    ensures UnpackAlignment(12) == 4
    ensures UnpackAlignment(8) == 8
    ensures UnpackAlignment(6) == 2
    ensures UnpackAlignment(4) == 4
    ensures UnpackAlignment(2) == 2
    ensures UnpackAlignment(1) == 1
  {
  }

  // ------------------------------------------------------------ upload triple

  datatype GlInternalFormat = Rgba8 | Rgba32f | Rgb32f | Luminance32f
  datatype GlPixelFormat = Bgra | Rgba | Rgb | Luminance
  datatype GlPixelType = GlUnsignedByte | GlFloat

  /** The internal format, pixel format and pixel type of the texture upload. */
  datatype GlUpload = GlUpload(internal: GlInternalFormat, format: GlPixelFormat, pixelType: GlPixelType)

  /** The upload triple for a buffer format; `None` for a format the copy
      does not handle. */
  function UploadFor(f: RtFormat): (u: Option<GlUpload>)
    ensures u.Some? <==> f in {UByte4Format, Float4Format, Float3Format, FloatFormat}
    ensures f == UByte4Format ==> u == Some(GlUpload(Rgba8, Bgra, GlUnsignedByte))
    ensures f == Float4Format ==> u == Some(GlUpload(Rgba32f, Rgba, GlFloat))
    ensures f == Float3Format ==> u == Some(GlUpload(Rgb32f, Rgb, GlFloat))
    ensures f == FloatFormat ==> u == Some(GlUpload(Luminance32f, Luminance, GlFloat))
  {
    if f == UByte4Format then Some(GlUpload(Rgba8, Bgra, GlUnsignedByte))
    else if f == Float4Format then Some(GlUpload(Rgba32f, Rgba, GlFloat))
    else if f == Float3Format then Some(GlUpload(Rgb32f, Rgb, GlFloat))
    else if f == FloatFormat then Some(GlUpload(Luminance32f, Luminance, GlFloat))
    else None
  }

  function PixelChannels(f: GlPixelFormat): nat {
    match f
    case Bgra => 4
    case Rgba => 4
    case Rgb => 3
    case Luminance => 1
  }

  function InternalChannels(f: GlInternalFormat): nat {
    match f
    case Rgba8 => 4
    case Rgba32f => 4
    case Rgb32f => 3
    case Luminance32f => 1
  }

  function PixelTypeSize(t: GlPixelType): nat {
    match t
    case GlUnsignedByte => 1
    case GlFloat => 4
  }

  /** Bytes one pixel of the upload reads from the unpack buffer. */
  function UploadPixelSize(u: GlUpload): nat {
    PixelChannels(u.format) * PixelTypeSize(u.pixelType)
  }

  /** Every upload the copy issues reads exactly one buffer element per
      pixel, keeps the channel count, and reads bytes as bytes and floats as
      floats. */
  lemma UploadMatchesElement(f: RtFormat)
    requires UploadFor(f).Some?
    ensures var u := UploadFor(f).value;
      && f.Vector?
      && UploadPixelSize(u) == ElementSize(f)
      && PixelChannels(u.format) == f.channels
      && InternalChannels(u.internal) == f.channels
      && (u.pixelType == GlFloat <==> f.component == Float32)
  {
  }

  // ------------------------------------------------------------ the copy

  /** `(GLsizei)` of a size: the low 32 bits read as a signed integer. */
  function ToGLsizei(n: nat): (r: int)
    ensures -0x8000_0000 <= r < 0x8000_0000
    ensures (r - n) % 0x1_0000_0000 == 0
    ensures n < 0x8000_0000 ==> r == n
  {
    var low := n % 0x1_0000_0000;
    if low < 0x8000_0000 then low else low - 0x1_0000_0000
  }

  /** The texture image the copy specifies. */
  datatype TexImage = TexImage(upload: GlUpload, width: int, height: int)

  /** What `ReadOutputTex` does to the bound texture: the unpack alignment it
      sets, and the image it specifies, if the format is one it handles. */
  datatype CopyPlan = CopyPlan(alignment: nat, image: Option<TexImage>)

  function ReadOutputTex(b: OutputBuffer): (p: CopyPlan)
    ensures p.alignment == HalvingAlignment(ElementSize(b.format), 3)
    ensures p.image.Some? <==> UploadFor(b.format).Some?
    ensures p.image.Some? ==>
      && p.image.value.upload == UploadFor(b.format).value
      && p.image.value.width == ToGLsizei(b.width)
      && p.image.value.height == ToGLsizei(b.height)
      && (b.width < 0x8000_0000 ==> p.image.value.width == b.width)
      && (b.height < 0x8000_0000 ==> p.image.value.height == b.height)
  {
    AlignmentIsCappedPowerOfTwo(ElementSize(b.format));
    var align := UnpackAlignment(ElementSize(b.format));
    match UploadFor(b.format)
    case None => CopyPlan(align, None)
    case Some(u) => CopyPlan(align, Some(TexImage(u, ToGLsizei(b.width), ToGLsizei(b.height))))
  }

  /** The surface created at initialisation (three floats per pixel) is
      copied with alignment 4 as a 32-bit float RGB image, and the copy reads
      exactly the bytes the surface holds. */
  lemma InitialSurfaceCopy(width: nat, height: nat)
    requires width < 0x8000_0000 && height < 0x8000_0000
    ensures var b := CreateOutput(Float3Format, width, height);
      var p := ReadOutputTex(b);
      && p.alignment == 4
      && p.image == Some(TexImage(GlUpload(Rgb32f, Rgb, GlFloat), width, height))
      && UploadPixelSize(p.image.value.upload) * width * height == b.bytes
  {
  }
}

=== FILE: scene.dfy ===
/**
 Host-side bookkeeping of `OptixScene`: the top-level group and its slots,
 the mesh and volume subtrees, the material table with its parameter blocks,
 and the single volume sampler. Scene-graph nodes, materials and the volume
 sampler are opaque handles; buffers, accelerations and programs are carried
 as plain values. Each operation is a pure transition from one scene state to
 the next.
 */
module SceneGraph {
  import opened OptixTypes
  import opened MeshPacking

  /** A material: its closest-hit program (ray type 0), any-hit program
      (ray type 1), and the parameter block last published on its `mat`
      variable. */
  datatype Material = Material(
    handle: Handle,
    closestHit: ProgramRef,
    anyHit: ProgramRef,
    published: MaterialParams)

  /** The acceleration structure of a subtree's geometry group. */
  datatype Accel = Accel(refit: bool, dirty: bool)

  datatype Geometry =
    | MeshGeometry(primitiveCount: nat, intersect: ProgramRef, bounds: ProgramRef, buffers: MeshBuffers)
    | VolumeGeometry(primitiveCount: nat, intersect: ProgramRef, bounds: ProgramRef,
                     bricks: seq<Float3>, matIdVar: nat)

  /** One Transform -> GeometryGroup -> GeometryInstance -> Geometry chain. */
  datatype Subtree = Subtree(
    geometry: Handle,
    instance: Handle,
    group: Handle,
    transform: Handle,
    geom: Geometry,
    material: Handle,
    accel: Accel,
    xform: Matrix4)

  /** What a top-level slot refers to: a transform node and its matrix. */
  datatype TransformNode = TransformNode(handle: Handle, xform: Matrix4)

  /** The volume texture sampler, created over the atlas's GL texture id. */
  datatype VolumeSampler = VolumeSampler(handle: Handle, atlas: int)

  datatype Scene = Scene(
    objects: seq<ObjectKind>,        // every object created, indexed by its handle
    destroyed: seq<Handle>,          // every `destroy` call, in call order
    children: seq<Option<TransformNode>>,  // the top-level group's slots; the length is its child count
    models: seq<Subtree>,
    volumes: seq<Subtree>,
    mats: seq<Material>,
    matParams: seq<MaterialParams>,
    sampler: Option<VolumeSampler>,
    volTexIn: Option<Handle>,        // the sampler published as `volTexIn`
    paramsSize: nat)                 // sizeof(MaterialParams)

  /** `h` has been created and not yet destroyed. */
  predicate Live(s: Scene, h: Handle) {
    h < |s.objects| && h !in s.destroyed
  }

  /** The root state `InitializeOptix` leaves: the top-level group (handle 0)
      with no children, and nothing else of the graph built yet. */
  function Init(paramsSize: nat): (s: Scene)
    ensures s.children == []
    ensures s.objects == [TopGroupObj] && s.destroyed == []
    ensures s.volTexIn == None && s.paramsSize == paramsSize
    ensures s.models == [] && s.volumes == [] && s.mats == [] && s.matParams == []
    ensures s.sampler == None
    ensures Live(s, 0) && s.objects[0] == TopGroupObj
  {
    Scene([TopGroupObj], [], [], [], [], [], [], None, None, paramsSize)
  }

  /** The slot the next `AddPolygons` or `AddVolume` attaches to. */
  function NextSlot(s: Scene): nat {
    |s.models| + |s.volumes|
  }

  /** Slot `k` of `children` once the child count is at least `k + 1`:
      what it held, or empty if it lay beyond the old count. */
  function SlotAt(children: seq<Option<TransformNode>>, k: nat): Option<TransformNode> {
    if k < |children| then children[k] else None
  }

  /** `setChildCount(n)`: the child list is resized to `n`, keeping the
      children below `n` and adding empty slots beyond the old count. */
  function ResizeChildren(children: seq<Option<TransformNode>>, n: nat): (r: seq<Option<TransformNode>>)
    ensures |r| == n
    ensures forall k :: 0 <= k < n ==> r[k] == SlotAt(children, k)
  {
    if n <= |children| then children[..n] else children + seq(n - |children|, _ => None)
  }

  /** `setChildCount(id+1)` then `setChild(id, node)`. */
  function Attach(s: Scene, id: nat, node: TransformNode): (s': Scene)
    ensures |s'.children| == id + 1
    ensures s'.children[id] == Some(node)
    ensures forall k :: 0 <= k < id ==> s'.children[k] == SlotAt(s.children, k)
    ensures s' == s.(children := s'.children)
  {
    s.(children := ResizeChildren(s.children, id + 1)[id := Some(node)])
  }

  // ---------------------------------------------------------------- materials

  /** `AddMaterial`: a new material with the two programs of `<fname>.ptx`,
      and a zeroed parameter block appended to the parameter list and
      published on it. Returns the new material's index. */
  function AddMaterial(s: Scene, fname: string, castProg: string, shadowProg: string): (r: (Scene, nat))
    ensures var (s', idx) := r;
      && idx == |s'.mats| - 1
      && s'.mats[..idx] == s.mats && |s'.mats| == |s.mats| + 1
      && s'.matParams == s.matParams + [MaterialParams(ZeroBytes(s.paramsSize))]
      && s'.mats[idx].closestHit == ProgramRef(fname + ".ptx", castProg)
      && s'.mats[idx].anyHit == ProgramRef(fname + ".ptx", shadowProg)
      && s'.mats[idx].published == s'.matParams[|s'.matParams| - 1]
      && s'.mats[idx].handle == |s.objects|
      && s'.objects == s.objects + [MaterialObj] && s'.destroyed == s.destroyed
      && s'.models == s.models && s'.volumes == s.volumes
      && s'.children == s.children
      && s'.sampler == s.sampler && s'.volTexIn == s.volTexIn
      && s'.paramsSize == s.paramsSize
  {
    var zero := MaterialParams(ZeroBytes(s.paramsSize));
    var h := |s.objects|;
    var mat := Material(h, ProgramRef(fname + ".ptx", castProg), ProgramRef(fname + ".ptx", shadowProg), zero);
    (s.(objects := s.objects + [MaterialObj], mats := s.mats + [mat], matParams := s.matParams + [zero]),
     |s.mats|)
  }

  /** `SetMaterialParams(n)`: republishes the stored block `matParams[n]` on
      material `n`; nothing else changes. */
  function SetMaterialParams(s: Scene, n: int): (s': Scene)
    requires 0 <= n < |s.mats| && n < |s.matParams|
    ensures |s'.mats| == |s.mats|
    ensures s'.mats[n] == s.mats[n].(published := s.matParams[n])
    ensures forall k :: 0 <= k < |s.mats| && k != n ==> s'.mats[k] == s.mats[k]
    ensures s' == s.(mats := s'.mats)
  {
    s.(mats := s.mats[n := s.mats[n].(published := s.matParams[n])])
  }

  /** A caller filling stored block `n` in place before republishing it
      with `SetMaterialParams(n)`; the material itself still publishes the
      block it was last given. */
  function WriteMaterialParams(s: Scene, n: int, p: MaterialParams): (s': Scene)
    requires 0 <= n < |s.matParams|
    ensures |s'.matParams| == |s.matParams| && s'.matParams[n] == p
    ensures forall k :: 0 <= k < |s.matParams| && k != n ==> s'.matParams[k] == s.matParams[k]
    ensures s' == s.(matParams := s'.matParams)
  {
    s.(matParams := s.matParams[n := p])
  }

  // ---------------------------------------------------------------- subtrees

  /** `AddPolygons`: a mesh subtree over the packed buffers, bound to
      material `matId`, attached at the next slot. */
  function AddPolygons(s: Scene, m: MeshModel, matId: int, xform: Matrix4): (s': Scene)
    requires WellFormed(m)
    requires 0 <= matId < |s.mats|
    ensures |s'.models| == |s.models| + 1 && s'.models[..|s.models|] == s.models
    ensures var id := NextSlot(s);
      && |s'.children| == id + 1
      && s'.children[id] == Some(TransformNode(s'.models[|s.models|].transform, xform))
      && (forall k :: 0 <= k < id ==> s'.children[k] == SlotAt(s.children, k))
    ensures var t := s'.models[|s.models|];
      && t.geom == MeshGeometry(m.elemCount, MeshIntersectProg, MeshBoundsProg, PackMesh(m))
      && t.material == s.mats[matId].handle
      && t.accel == Accel(false, true)
      && t.xform == xform
      && t.geometry == |s.objects| && t.instance == |s.objects| + 1
      && t.group == |s.objects| + 2 && t.transform == |s.objects| + 3
    ensures s'.objects == s.objects + [GeometryObj, InstanceObj, GroupObj, TransformObj]
    ensures s'.volumes == s.volumes && s'.destroyed == s.destroyed
    ensures s'.mats == s.mats && s'.matParams == s.matParams
    ensures s'.sampler == s.sampler && s'.volTexIn == s.volTexIn && s'.paramsSize == s.paramsSize
  {
    var base := |s.objects|;
    var geom := MeshGeometry(m.elemCount, MeshIntersectProg, MeshBoundsProg, PackMesh(m));
    var t := Subtree(base, base + 1, base + 2, base + 3, geom, s.mats[matId].handle, Accel(false, true), xform);
    var s1 := s.(objects := s.objects + [GeometryObj, InstanceObj, GroupObj, TransformObj]);
    var s2 := Attach(s1, NextSlot(s), TransformNode(t.transform, xform));
    s2.(models := s.models + [t])
  }

  /** The volume intersection program: `deep` wins, then `lset`, otherwise
      the surface program. */
  function VolumeIntersectProgram(deep: bool, lset: bool): (p: ProgramRef)
    ensures p == VolDeepProg <==> deep
    ensures p == VolLevelSetProg <==> !deep && lset
    ensures p == VolSurfaceProg <==> !deep && !lset
  {
    if deep then VolDeepProg
    else if lset then VolLevelSetProg
    else VolSurfaceProg
  }

  /** `AddVolume`: a one-brick volume subtree bound to material `matId`,
      attached at the next slot; then the previous sampler (if any) is
      destroyed and a new one over `atlas` is created and published. */
  function AddVolume(s: Scene, atlas: int, vmin: Float3, vmax: Float3, matId: int, xform: Matrix4,
                     deep: bool, lset: bool): (s': Scene)
    requires 0 <= matId < |s.mats|
    ensures |s'.volumes| == |s.volumes| + 1 && s'.volumes[..|s.volumes|] == s.volumes
    ensures var id := NextSlot(s);
      && |s'.children| == id + 1
      && s'.children[id] == Some(TransformNode(s'.volumes[|s.volumes|].transform, xform))
      && (forall k :: 0 <= k < id ==> s'.children[k] == SlotAt(s.children, k))
    ensures var t := s'.volumes[|s.volumes|];
      && t.geom.VolumeGeometry?
      && t.geom.primitiveCount == 1
      && t.geom.intersect == VolumeIntersectProgram(deep, lset)
      && t.geom.bounds == VolBoundsProg
      && t.geom.bricks == [vmin, vmax]
      && t.geom.matIdVar == matId
      && t.material == s.mats[matId].handle
      && t.accel == Accel(true, true)
      && t.xform == xform
      && t.geometry == |s.objects| && t.instance == |s.objects| + 1
      && t.group == |s.objects| + 2 && t.transform == |s.objects| + 3
    ensures s'.objects == s.objects + [GeometryObj, InstanceObj, GroupObj, TransformObj, SamplerObj]
    ensures s'.sampler == Some(VolumeSampler(|s.objects| + 4, atlas))
    ensures s'.volTexIn == Some(|s.objects| + 4)
    ensures s'.destroyed == s.destroyed + (if s.sampler.Some? then [s.sampler.value.handle] else [])
    ensures s'.models == s.models && s'.mats == s.mats && s'.matParams == s.matParams
    ensures s'.paramsSize == s.paramsSize
  {
    var base := |s.objects|;
    var geom := VolumeGeometry(1, VolumeIntersectProgram(deep, lset), VolBoundsProg, [vmin, vmax], matId);
    var t := Subtree(base, base + 1, base + 2, base + 3, geom, s.mats[matId].handle, Accel(true, true), xform);
    var s1 := s.(objects := s.objects + [GeometryObj, InstanceObj, GroupObj, TransformObj]);
    var s2 := Attach(s1, NextSlot(s), TransformNode(t.transform, xform));
    var s3 := s2.(volumes := s.volumes + [t]);
    var retired := if s.sampler.Some? then [s.sampler.value.handle] else [];
    var h := base + 4;
    s3.(objects := s3.objects + [SamplerObj], destroyed := s3.destroyed + retired,
        sampler := Some(VolumeSampler(h, atlas)), volTexIn := Some(h))
  }

  // ---------------------------------------------------------------- teardown

  /** A subtree's nodes, children before parents. */
  function Chain(t: Subtree): seq<Handle> {
    [t.geometry, t.instance, t.group, t.transform]
  }

  /** The destroy calls for a list of subtrees: per subtree, geometry, then
      instance, then group, then transform. */
  function TeardownSubtrees(ts: seq<Subtree>): (log: seq<Handle>)
    ensures |log| == 4 * |ts|
  {
    if |ts| == 0 then [] else Chain(ts[0]) + TeardownSubtrees(ts[1..])
  }

  /** The destroy calls for the material table, in table order. */
  function TeardownMaterials(ms: seq<Material>): (log: seq<Handle>)
    ensures |log| == |ms|
    ensures forall k :: 0 <= k < |ms| ==> log[k] == ms[k].handle
  {
    if |ms| == 0 then [] else [ms[0].handle] + TeardownMaterials(ms[1..])
  }

  /** Every destroy call `ClearGraph` makes, in order: the mesh subtrees,
      the volume subtrees, then the materials. */
  function ClearLog(s: Scene): seq<Handle> {
    TeardownSubtrees(s.models) + TeardownSubtrees(s.volumes) + TeardownMaterials(s.mats)
  }

  /** `ClearGraph`: destroys every subtree and material and empties their
      lists. The parameter list, the top-level group's child count and slots,
      and the sampler are left as they were. */
  function ClearGraph(s: Scene): (s': Scene)
    ensures s'.models == [] && s'.volumes == [] && s'.mats == []
    ensures s'.destroyed == s.destroyed + ClearLog(s)
    ensures s'.matParams == s.matParams
    ensures s'.children == s.children
    ensures s'.sampler == s.sampler && s'.volTexIn == s.volTexIn
    ensures s'.objects == s.objects && s'.paramsSize == s.paramsSize
  {
    s.(destroyed := s.destroyed + ClearLog(s), models := [], volumes := [], mats := [])
  }
}

=== FILE: scene_properties.dfy ===
/**
 Properties of the scene bookkeeping across calls: the invariant every
 reachable scene keeps, slot assignment in creation order, the teardown
 order of `ClearGraph`, the single live volume sampler, and the material
 list and parameter list growing in lockstep only until a `ClearGraph`.
 */
module SceneProperties {
  import opened OptixTypes
  import opened MeshPacking
  import opened SceneGraph

  // ------------------------------------------------------------ invariant

  predicate SubtreeOk(s: Scene, t: Subtree) {
    && Live(s, t.geometry) && s.objects[t.geometry] == GeometryObj
    && Live(s, t.instance) && s.objects[t.instance] == InstanceObj
    && Live(s, t.group) && s.objects[t.group] == GroupObj
    && Live(s, t.transform) && s.objects[t.transform] == TransformObj
  }

  predicate MaterialOk(s: Scene, m: Material) {
    Live(s, m.handle) && s.objects[m.handle] == MaterialObj
  }

  /** The current sampler is live and published, and no other sampler is live. */
  predicate SamplerOk(s: Scene) {
    && (s.sampler.Some? ==>
          var h := s.sampler.value.handle;
          Live(s, h) && s.objects[h] == SamplerObj && s.volTexIn == Some(h))
    && (forall h :: 0 <= h < |s.objects| && Live(s, h) && s.objects[h] == SamplerObj ==>
          s.sampler.Some? && h == s.sampler.value.handle)
  }

  /** What every scene reachable from `Init` satisfies: the objects in the
      lists are live and of the right kind, only created objects have been
      destroyed, there is never a material without a parameter block, and at
      most the current sampler is live. */
  predicate Inv(s: Scene) {
    && (forall i :: 0 <= i < |s.destroyed| ==> s.destroyed[i] < |s.objects|)
    && (forall i :: 0 <= i < |s.models| ==> SubtreeOk(s, s.models[i]))
    && (forall i :: 0 <= i < |s.volumes| ==> SubtreeOk(s, s.volumes[i]))
    && (forall i :: 0 <= i < |s.mats| ==> MaterialOk(s, s.mats[i]))
    && |s.mats| <= |s.matParams|
    && SamplerOk(s)
  }

  function LiveSamplers(s: Scene): set<Handle> {
    set h | 0 <= h < |s.objects| && Live(s, h) && s.objects[h] == SamplerObj
  }

  /** The root state satisfies the invariant. */
  lemma InitInv(paramsSize: nat)
    ensures Inv(Init(paramsSize))
    ensures LiveSamplers(Init(paramsSize)) == {}
  {
    var s := Init(paramsSize);
    assert forall h :: h in LiveSamplers(s) ==> h == 0;
  }

  /** The invariant pins the set of live samplers to the current one. */
  lemma LiveSamplersOfInv(s: Scene)
    requires Inv(s)
    ensures LiveSamplers(s) == if s.sampler.Some? then {s.sampler.value.handle} else {}
  {
  }

  lemma AddMaterialInv(s: Scene, fname: string, castProg: string, shadowProg: string)
    requires Inv(s)
    ensures Inv(AddMaterial(s, fname, castProg, shadowProg).0)
  {
    var s' := AddMaterial(s, fname, castProg, shadowProg).0;
    assert forall i :: 0 <= i < |s.objects| ==> s'.objects[i] == s.objects[i];
    assert forall i :: 0 <= i < |s.mats| ==> s'.mats[i] == s.mats[i];
    assert s'.objects[|s.objects|] == MaterialObj;
  }

  lemma SetMaterialParamsInv(s: Scene, n: int)
    requires Inv(s)
    requires 0 <= n < |s.mats| && n < |s.matParams|
    ensures Inv(SetMaterialParams(s, n))
  {
    var s' := SetMaterialParams(s, n);
    assert forall i :: 0 <= i < |s.mats| ==> s'.mats[i].handle == s.mats[i].handle;
  }

  lemma AddPolygonsInv(s: Scene, m: MeshModel, matId: int, xform: Matrix4)
    requires Inv(s)
    requires WellFormed(m) && 0 <= matId < |s.mats|
    ensures Inv(AddPolygons(s, m, matId, xform))
  {
    var s' := AddPolygons(s, m, matId, xform);
    assert forall i :: 0 <= i < |s.objects| ==> s'.objects[i] == s.objects[i];
    assert forall i :: 0 <= i < |s.models| ==> s'.models[i] == s.models[i];
    var b := |s.objects|;
    assert b !in s.destroyed && b + 1 !in s.destroyed && b + 2 !in s.destroyed && b + 3 !in s.destroyed;
  }

  /** `s'` extends `s`: the objects of `s` keep their kinds, and the only
      handles newly destroyed are samplers of `s`. */
  predicate Grows(s: Scene, s': Scene) {
    && |s.objects| <= |s'.objects|
    && (forall h :: 0 <= h < |s.objects| ==> s'.objects[h] == s.objects[h])
    && (forall h :: h in s'.destroyed ==> h in s.destroyed || (h < |s.objects| && s.objects[h] == SamplerObj))
  }

  lemma GrowsKeepsSubtrees(s: Scene, s': Scene, ts: seq<Subtree>)
    requires Grows(s, s')
    requires forall i :: 0 <= i < |ts| ==> SubtreeOk(s, ts[i])
    ensures forall i :: 0 <= i < |ts| ==> SubtreeOk(s', ts[i])
  {
  }

  lemma GrowsKeepsMaterials(s: Scene, s': Scene, ms: seq<Material>)
    requires Grows(s, s')
    requires forall i :: 0 <= i < |ms| ==> MaterialOk(s, ms[i])
    ensures forall i :: 0 <= i < |ms| ==> MaterialOk(s', ms[i])
  {
  }

  lemma AddVolumeInv(s: Scene, atlas: int, vmin: Float3, vmax: Float3, matId: int, xform: Matrix4,
                     deep: bool, lset: bool)
    requires Inv(s)
    requires 0 <= matId < |s.mats|
    ensures Inv(AddVolume(s, atlas, vmin, vmax, matId, xform, deep, lset))
  {
    var s' := AddVolume(s, atlas, vmin, vmax, matId, xform, deep, lset);
    var b := |s.objects|;
    assert Grows(s, s');
    GrowsKeepsSubtrees(s, s', s.models);
    GrowsKeepsSubtrees(s, s', s.volumes);
    GrowsKeepsMaterials(s, s', s.mats);
    assert forall i :: 0 <= i < |s.volumes| ==> s'.volumes[i] == s.volumes[i];
    assert SubtreeOk(s', s'.volumes[|s.volumes|]);
    assert b + 4 !in s'.destroyed;
  }

  /** Every handle a teardown destroys is a created object that is not a sampler. */
  lemma {:induction false} TeardownKinds(s: Scene, ts: seq<Subtree>)
    requires forall i :: 0 <= i < |ts| ==> SubtreeOk(s, ts[i])
    ensures forall h :: h in TeardownSubtrees(ts) ==> h < |s.objects| && s.objects[h] != SamplerObj
  {
    if |ts| > 0 {
      TeardownKinds(s, ts[1..]);
    }
  }

  lemma {:induction false} MaterialTeardownKinds(s: Scene, ms: seq<Material>)
    requires forall i :: 0 <= i < |ms| ==> MaterialOk(s, ms[i])
    ensures forall h :: h in TeardownMaterials(ms) ==> h < |s.objects| && s.objects[h] != SamplerObj
  {
    if |ms| > 0 {
      MaterialTeardownKinds(s, ms[1..]);
    }
  }

  lemma ClearGraphInv(s: Scene)
    requires Inv(s)
    ensures Inv(ClearGraph(s))
  {
    var s' := ClearGraph(s);
    TeardownKinds(s, s.models);
    TeardownKinds(s, s.volumes);
    MaterialTeardownKinds(s, s.mats);
    var log := ClearLog(s);
    assert forall h :: h in log ==> h < |s.objects| && s.objects[h] != SamplerObj;
    forall i | 0 <= i < |s'.destroyed|
      ensures s'.destroyed[i] < |s'.objects|
    {
      if i >= |s.destroyed| {
        assert s'.destroyed[i] == log[i - |s.destroyed|];
        assert log[i - |s.destroyed|] in log;
      }
    }
  }

  // ------------------------------------------------------------ operation sequences

  /** A call that attaches a subtree. */
  datatype AddCall =
    | MeshCall(model: MeshModel, matId: int, xform: Matrix4)
    | VolumeCall(atlas: int, vmin: Float3, vmax: Float3, matId: int, xform: Matrix4, deep: bool, lset: bool)

  /** Any mutation of the scene graph. */
  datatype Op =
    | AddMaterialOp(fname: string, castProg: string, shadowProg: string)
    | SetParamsOp(n: int)
    | WriteParamsOp(n: int, p: MaterialParams)
    | AddOp(call: AddCall)
    | ClearOp

  predicate CallOk(s: Scene, c: AddCall) {
    0 <= c.matId < |s.mats| && (c.MeshCall? ==> WellFormed(c.model))
  }

  function ApplyAdd(s: Scene, c: AddCall): Scene
    requires CallOk(s, c)
  {
    match c
    case MeshCall(m, matId, xform) => AddPolygons(s, m, matId, xform)
    case VolumeCall(atlas, vmin, vmax, matId, xform, deep, lset) =>
      AddVolume(s, atlas, vmin, vmax, matId, xform, deep, lset)
  }

  /** What the source needs before the call: indices in range, readable mesh. */
  predicate Enabled(s: Scene, op: Op) {
    match op
    case AddMaterialOp(_, _, _) => true
    case SetParamsOp(n) => 0 <= n < |s.mats| && n < |s.matParams|
    case WriteParamsOp(n, _) => 0 <= n < |s.matParams|
    case AddOp(c) => CallOk(s, c)
    case ClearOp => true
  }

  function Apply(s: Scene, op: Op): Scene
    requires Enabled(s, op)
  {
    match op
    case AddMaterialOp(f, c, sh) => AddMaterial(s, f, c, sh).0
    case SetParamsOp(n) => SetMaterialParams(s, n)
    case WriteParamsOp(n, p) => WriteMaterialParams(s, n, p)
    case AddOp(c) => ApplyAdd(s, c)
    case ClearOp => ClearGraph(s)
  }

  /** Runs `ops` in order; `None` when some call is not enabled. */
  function Run(s: Scene, ops: seq<Op>): Option<Scene> {
    if |ops| == 0 then Some(s)
    else match Run(s, ops[..|ops| - 1])
      case None => None
      case Some(t) =>
        if Enabled(t, ops[|ops| - 1]) then Some(Apply(t, ops[|ops| - 1])) else None
  }

  lemma StepInv(s: Scene, op: Op)
    requires Inv(s) && Enabled(s, op)
    ensures Inv(Apply(s, op))
  {
    match op
    case AddMaterialOp(f, c, sh) => AddMaterialInv(s, f, c, sh);
    case SetParamsOp(n) => SetMaterialParamsInv(s, n);
    case WriteParamsOp(n, p) => assert Inv(WriteMaterialParams(s, n, p));
    case AddOp(c) =>
      match c {
        case MeshCall(m, matId, xform) => AddPolygonsInv(s, m, matId, xform);
        case VolumeCall(atlas, vmin, vmax, matId, xform, deep, lset) =>
          AddVolumeInv(s, atlas, vmin, vmax, matId, xform, deep, lset);
      }
    case ClearOp => ClearGraphInv(s);
  }

  /** Every scene reachable from the root state keeps the invariant; in
      particular at most one sampler is ever live, and it is the current one. */
  lemma {:induction false} ReachableInv(paramsSize: nat, ops: seq<Op>)
    requires Run(Init(paramsSize), ops).Some?
    ensures Inv(Run(Init(paramsSize), ops).value)
    ensures var s := Run(Init(paramsSize), ops).value;
      LiveSamplers(s) == if s.sampler.Some? then {s.sampler.value.handle} else {}
  {
    var s0 := Init(paramsSize);
    if |ops| == 0 {
      InitInv(paramsSize);
    } else {
      ReachableInv(paramsSize, ops[..|ops| - 1]);
      StepInv(Run(s0, ops[..|ops| - 1]).value, ops[|ops| - 1]);
    }
    LiveSamplersOfInv(Run(s0, ops).value);
  }

  /** While the scene has subtrees, the child count is their number and
      every slot below it holds a live transform node. */
  predicate SlotsOk(s: Scene) {
    && (NextSlot(s) > 0 ==> |s.children| == NextSlot(s))
    && (forall k :: 0 <= k < NextSlot(s) ==>
          && k < |s.children| && s.children[k].Some?
          && Live(s, s.children[k].value.handle)
          && s.objects[s.children[k].value.handle] == TransformObj)
  }

  lemma StepSlots(s: Scene, op: Op)
    requires Inv(s) && SlotsOk(s) && Enabled(s, op)
    ensures SlotsOk(Apply(s, op))
  {
    if op.AddOp? {
      var r := Apply(s, op);
      ApplyAddSlots(s, op.call);
      assert Grows(s, r);
      forall k | 0 <= k < NextSlot(r)
        ensures && k < |r.children| && r.children[k].Some?
                && Live(r, r.children[k].value.handle)
                && r.objects[r.children[k].value.handle] == TransformObj
      {
        if k < NextSlot(s) {
          assert r.children[k] == s.children[k];
        }
      }
    }
  }

  /** In every scene reachable from the root state, the child count is the
      number of subtrees (once there is one), and each slot below it refers
      to a live transform: the stale slots a clear leaves are never read
      as current. */
  lemma {:induction false} ReachableSlots(paramsSize: nat, ops: seq<Op>)
    requires Run(Init(paramsSize), ops).Some?
    ensures SlotsOk(Run(Init(paramsSize), ops).value)
  {
    if |ops| > 0 {
      ReachableSlots(paramsSize, ops[..|ops| - 1]);
      ReachableInv(paramsSize, ops[..|ops| - 1]);
      StepSlots(Run(Init(paramsSize), ops[..|ops| - 1]).value, ops[|ops| - 1]);
    }
  }

  // ------------------------------------------------------------ materials

  /** The material list and the parameter list have the same length. */
  predicate Lockstep(s: Scene) {
    |s.mats| == |s.matParams|
  }

  predicate NoClear(ops: seq<Op>) {
    forall i :: 0 <= i < |ops| ==> !ops[i].ClearOp?
  }

  /** Until a `ClearGraph`, every call keeps the two lists in lockstep. */
  lemma {:induction false} LockstepUntilClear(s: Scene, ops: seq<Op>)
    requires Lockstep(s) && NoClear(ops) && Run(s, ops).Some?
    ensures Lockstep(Run(s, ops).value)
  {
    if |ops| > 0 {
      LockstepUntilClear(s, ops[..|ops| - 1]);
      var t := Run(s, ops[..|ops| - 1]).value;
      assert !ops[|ops| - 1].ClearOp?;
    }
  }

  /** `ClearGraph` empties the material list but keeps every parameter block,
      so a material added afterwards gets index 0 while its zeroed block is
      appended at the old end of the parameter list: `SetMaterialParams(0)`
      then republishes the block of the first material of the cleared
      scene, not the new one's. */
  lemma StaleParamsAfterClear(s: Scene, fname: string, castProg: string, shadowProg: string)
    requires Lockstep(s) && |s.mats| > 0
    ensures var s1 := ClearGraph(s);
      var (s2, idx) := AddMaterial(s1, fname, castProg, shadowProg);
      && !Lockstep(s1)
      && idx == 0
      && |s2.matParams| == |s.matParams| + 1
      && s2.matParams[|s.matParams|] == MaterialParams(ZeroBytes(s.paramsSize))
      && SetMaterialParams(s2, idx).mats[idx].published == s.matParams[0]
  {
  }

  /** A block the caller wrote is what `SetMaterialParams` publishes next. */
  lemma WrittenBlockPublished(s: Scene, n: int, p: MaterialParams)
    requires 0 <= n < |s.mats| && n < |s.matParams|
    ensures var s' := SetMaterialParams(WriteMaterialParams(s, n, p), n);
      && s'.mats[n].published == p
      && s'.mats[n].handle == s.mats[n].handle
  {
  }

  /** The stale block is reachable: from the root state, add a material,
      write its block, clear, add a new material and republish block 0. The
      new material publishes the block written before the clear, while its
      own zeroed block sits unused at index 1. */
  lemma {:induction false} StaleBlockReachable(paramsSize: nat, p: MaterialParams,
                                               fname: string, castProg: string, shadowProg: string)
    ensures var ops := [AddMaterialOp(fname, castProg, shadowProg), WriteParamsOp(0, p), ClearOp,
                        AddMaterialOp(fname, castProg, shadowProg), SetParamsOp(0)];
      var r := Run(Init(paramsSize), ops);
      && r.Some?
      && |r.value.mats| == 1 && |r.value.matParams| == 2
      && r.value.mats[0].published == p
      && r.value.matParams[1] == MaterialParams(ZeroBytes(paramsSize))
  {
    var op1 := AddMaterialOp(fname, castProg, shadowProg);
    var ops := [op1, WriteParamsOp(0, p), ClearOp, op1, SetParamsOp(0)];
    var s0 := Init(paramsSize);
    var s1 := Apply(s0, op1);
    var s2 := Apply(s1, WriteParamsOp(0, p));
    var s3 := Apply(s2, ClearOp);
    var s4 := Apply(s3, op1);
    assert |s4.mats| == 1 && |s4.matParams| == 2;
    var s5 := Apply(s4, SetParamsOp(0));
    assert ops[..0] == [];
    assert ops[..1][..0] == [];
    assert Run(s0, ops[..1]) == Some(s1);
    assert ops[..2][..1] == ops[..1];
    assert Run(s0, ops[..2]) == Some(s2);
    assert ops[..3][..2] == ops[..2];
    assert Run(s0, ops[..3]) == Some(s3);
    assert ops[..4][..3] == ops[..3];
    assert Run(s0, ops[..4]) == Some(s4);
    assert ops[..4] == ops[..|ops| - 1];
    assert Run(s0, ops) == Some(s5);
  }

  // ------------------------------------------------------------ slots

  /** Objects an add creates: geometry, instance, group and transform, and
      for a volume also a sampler. */
  function NewObjects(c: AddCall): nat {
    if c.MeshCall? then 4 else 5
  }

  /** The object count after the adds `cs`, starting from `n` objects. */
  function ObjectsAfter(n: nat, cs: seq<AddCall>): nat {
    if |cs| == 0 then n else ObjectsAfter(n, cs[..|cs| - 1]) + NewObjects(cs[|cs| - 1])
  }

  /** The handle of the transform the i-th add creates: the fourth object it
      creates, after all objects of the adds before it. */
  function TransformOf(n: nat, cs: seq<AddCall>, i: nat): Handle
    requires i <= |cs|
  {
    ObjectsAfter(n, cs[..i]) + 3
  }

  function ApplyAdds(s: Scene, cs: seq<AddCall>): (r: Scene)
    requires forall i :: 0 <= i < |cs| ==> CallOk(s, cs[i])
    ensures r.mats == s.mats
    ensures NextSlot(r) == NextSlot(s) + |cs|
    ensures |r.objects| == ObjectsAfter(|s.objects|, cs)
  {
    if |cs| == 0 then s
    else
      var t := ApplyAdds(s, cs[..|cs| - 1]);
      var c := cs[|cs| - 1];
      assert CallOk(s, c);
      ApplyAdd(t, c)
  }

  /** One add attaches its new transform at `NextSlot(t)` and keeps the slots
      below it. */
  lemma ApplyAddSlots(t: Scene, c: AddCall)
    requires CallOk(t, c)
    ensures var r := ApplyAdd(t, c);
      && r.mats == t.mats
      && NextSlot(r) == NextSlot(t) + 1
      && |r.objects| == |t.objects| + NewObjects(c)
      && r.objects[|t.objects| + 3] == TransformObj
      && |r.children| == NextSlot(t) + 1
      && r.children[NextSlot(t)] == Some(TransformNode(|t.objects| + 3, c.xform))
      && KeepsBelow(t.children, r.children, NextSlot(t))
  {
  }

  /** Slots `base ..` hold, in call order, the transforms the calls `cs`
      created when started with `n` objects: handle and matrix. */
  predicate FilledFrom(children: seq<Option<TransformNode>>, base: nat, n: nat, cs: seq<AddCall>) {
    forall i :: 0 <= i < |cs| ==>
      base + i < |children| && children[base + i] == Some(TransformNode(TransformOf(n, cs, i), cs[i].xform))
  }

  /** `r` keeps the slots of `t` below `bound` (empty where `t` had none). */
  predicate KeepsBelow(t: seq<Option<TransformNode>>, r: seq<Option<TransformNode>>, bound: nat) {
    bound <= |r| && forall k :: 0 <= k < bound ==> r[k] == SlotAt(t, k)
  }

  lemma KeepsBelowTrans(a: seq<Option<TransformNode>>, b: seq<Option<TransformNode>>, c: seq<Option<TransformNode>>,
                        bound: nat, bound': nat)
    requires bound <= bound' && KeepsBelow(a, b, bound) && KeepsBelow(b, c, bound')
    ensures KeepsBelow(a, c, bound)
  {
  }

  lemma FillStep(t: seq<Option<TransformNode>>, r: seq<Option<TransformNode>>, base: nat, n: nat, cs: seq<AddCall>)
    requires |cs| > 0
    requires FilledFrom(t, base, n, cs[..|cs| - 1])
    requires KeepsBelow(t, r, base + |cs| - 1)
    requires base + |cs| - 1 < |r|
    requires r[base + |cs| - 1] == Some(TransformNode(TransformOf(n, cs, |cs| - 1), cs[|cs| - 1].xform))
    ensures FilledFrom(r, base, n, cs)
  {
    var pre := cs[..|cs| - 1];
    forall i | 0 <= i < |cs|
      ensures base + i < |r| && r[base + i] == Some(TransformNode(TransformOf(n, cs, i), cs[i].xform))
    {
      if i < |cs| - 1 {
        assert pre[i] == cs[i];
        assert r[base + i] == SlotAt(t, base + i);
        assert pre[..i] == cs[..i];
      }
    }
  }

  /** The last add of a run, in terms of the run before it. */
  lemma AddsLastStep(s: Scene, cs: seq<AddCall>)
    requires |cs| > 0
    requires forall i :: 0 <= i < |cs| ==> CallOk(s, cs[i])
    ensures var t := ApplyAdds(s, cs[..|cs| - 1]);
      var r := ApplyAdds(s, cs);
      && |r.children| == NextSlot(t) + 1
      && r.children[NextSlot(t)] == Some(TransformNode(TransformOf(|s.objects|, cs, |cs| - 1), cs[|cs| - 1].xform))
      && KeepsBelow(t.children, r.children, NextSlot(t))
  {
    var t := ApplyAdds(s, cs[..|cs| - 1]);
    ApplyAddSlots(t, cs[|cs| - 1]);
  }

  /** After adds `cs`, slot `NextSlot(s) + i` holds the transform the i-th
      add created (its handle and matrix), the child count is exactly the
      number of subtrees, and slots below `NextSlot(s)` are as they were. */
  lemma {:induction false} AddsFillSlotsInOrder(s: Scene, cs: seq<AddCall>)
    requires forall i :: 0 <= i < |cs| ==> CallOk(s, cs[i])
    ensures var r := ApplyAdds(s, cs);
      && (|cs| > 0 ==> |r.children| == NextSlot(s) + |cs|)
      && FilledFrom(r.children, NextSlot(s), |s.objects|, cs)
      && KeepsBelow(s.children, r.children, if |cs| > 0 then NextSlot(s) else 0)
  {
    if |cs| > 0 {
      var n := |cs| - 1;
      var pre := cs[..n];
      assert forall i :: 0 <= i < n ==> pre[i] == cs[i];
      AddsFillSlotsInOrder(s, pre);
      AddsLastStep(s, cs);
      var t := ApplyAdds(s, pre);
      var r := ApplyAdds(s, cs);
      FillStep(t.children, r.children, NextSlot(s), |s.objects|, cs);
      if n > 0 {
        KeepsBelowTrans(s.children, t.children, r.children, NextSlot(s), NextSlot(t));
      }
    }
  }

  /** From the root state's empty group, N adds give child count N and slot
      i holds the transform the i-th add created. */
  lemma AddsFromEmpty(s: Scene, cs: seq<AddCall>)
    requires s.models == [] && s.volumes == [] && s.children == []
    requires forall i :: 0 <= i < |cs| ==> CallOk(s, cs[i])
    ensures var r := ApplyAdds(s, cs);
      && |r.children| == |cs|
      && (forall i :: 0 <= i < |cs| ==>
            r.children[i] == Some(TransformNode(TransformOf(|s.objects|, cs, i), cs[i].xform)))
  {
    AddsFillSlotsInOrder(s, cs);
    var r := ApplyAdds(s, cs);
    assert NextSlot(s) == 0;
    assert FilledFrom(r.children, 0, |s.objects|, cs);
    if |cs| == 0 {
      assert r == s;
    }
  }

  /** The first add into a scene with no subtrees uses slot 0 for the
      transform it creates and sets the child count to 1, whatever the count
      was before. */
  lemma FirstAddUsesSlotZero(t: Scene, c: AddCall)
    requires t.models == [] && t.volumes == [] && CallOk(t, c)
    ensures var r := ApplyAdd(t, c);
      && |r.children| == 1
      && r.children[0] == Some(TransformNode(|t.objects| + 3, c.xform))
      && r.objects[|t.objects| + 3] == TransformObj
  {
    ApplyAddSlots(t, c);
  }

  /** After `ClearGraph` the child count is stale until the next add; a
      material must be added first, and the add then puts the transform it
      creates (a handle newer than every object of the cleared scene) in
      slot 0 and sets the child count to 1. */
  lemma ClearThenAdd(s: Scene, fname: string, castProg: string, shadowProg: string, c: AddCall)
    requires c.matId == 0 && (c.MeshCall? ==> WellFormed(c.model))
    ensures var t := AddMaterial(ClearGraph(s), fname, castProg, shadowProg).0;
      && t.children == s.children
      && CallOk(t, c)
      && |ApplyAdd(t, c).children| == 1
      && ApplyAdd(t, c).children[0] == Some(TransformNode(|s.objects| + 4, c.xform))
      && ApplyAdd(t, c).objects[|s.objects| + 4] == TransformObj
  {
    var t := AddMaterial(ClearGraph(s), fname, castProg, shadowProg).0;
    FirstAddUsesSlotZero(t, c);
  }

  // ------------------------------------------------------------ teardown

  lemma {:induction false} TeardownChildrenFirst(ts: seq<Subtree>, k: nat)
    requires k < |ts|
    ensures TeardownSubtrees(ts)[4 * k .. 4 * k + 4] == Chain(ts[k])
  {
    if k > 0 {
      TeardownChildrenFirst(ts[1..], k - 1);
      assert TeardownSubtrees(ts) == Chain(ts[0]) + TeardownSubtrees(ts[1..]);
    }
  }

  lemma {:induction false} TeardownMaterialsInOrder(ms: seq<Material>, k: nat)
    requires k < |ms|
    ensures TeardownMaterials(ms)[k] == ms[k].handle
  {
    if k > 0 {
      TeardownMaterialsInOrder(ms[1..], k - 1);
    }
  }

  /** `ClearGraph` destroys, for each mesh subtree in order and then each
      volume subtree in order, geometry, instance, group and transform, and
      then every material in table order. */
  lemma ClearGraphOrder(s: Scene)
    ensures var log := ClearLog(s);
      var nm := |s.models|;
      var nv := |s.volumes|;
      && |log| == 4 * nm + 4 * nv + |s.mats|
      && (forall k :: 0 <= k < nm ==> log[4 * k .. 4 * k + 4] == Chain(s.models[k]))
      && (forall k :: 0 <= k < nv ==> log[4 * nm + 4 * k .. 4 * nm + 4 * k + 4] == Chain(s.volumes[k]))
      && (forall k :: 0 <= k < |s.mats| ==> log[4 * nm + 4 * nv + k] == s.mats[k].handle)
  {
    var a := TeardownSubtrees(s.models);
    var b := TeardownSubtrees(s.volumes);
    var c := TeardownMaterials(s.mats);
    var log := ClearLog(s);
    assert log == a + b + c;
    forall k | 0 <= k < |s.models|
      ensures log[4 * k .. 4 * k + 4] == Chain(s.models[k])
    {
      TeardownChildrenFirst(s.models, k);
      assert log[4 * k .. 4 * k + 4] == a[4 * k .. 4 * k + 4];
    }
    forall k | 0 <= k < |s.volumes|
      ensures log[|a| + 4 * k .. |a| + 4 * k + 4] == Chain(s.volumes[k])
    {
      TeardownChildrenFirst(s.volumes, k);
      assert log[|a| + 4 * k .. |a| + 4 * k + 4] == b[4 * k .. 4 * k + 4];
    }
    forall k | 0 <= k < |s.mats|
      ensures log[|a| + |b| + k] == s.mats[k].handle
    {
      TeardownMaterialsInOrder(s.mats, k);
    }
  }

  /** After `ClearGraph` the top-level group keeps its child count and its
      slots, which now refer to destroyed transforms: the count is only
      corrected by the next add. */
  lemma ClearLeavesStaleSlots(s: Scene, k: nat, i: nat)
    requires k < |s.children| && s.children[k].Some? && i < |s.models| + |s.volumes|
    requires s.children[k].value.handle == (s.models + s.volumes)[i].transform
    ensures var s' := ClearGraph(s);
      && |s'.children| == |s.children|
      && s'.children[k] == s.children[k]
      && s.children[k].value.handle in s'.destroyed
  {
    ClearGraphOrder(s);
    var log := ClearLog(s);
    var nm := |s.models|;
    if i < nm {
      assert (s.models + s.volumes)[i] == s.models[i];
      assert log[4 * i + 3] == Chain(s.models[i])[3];
    } else {
      var j := i - nm;
      assert (s.models + s.volumes)[i] == s.volumes[j];
      assert log[4 * nm + 4 * j + 3] == Chain(s.volumes[j])[3];
    }
  }

  // ------------------------------------------------------------ sampler

  /** After `AddVolume` exactly one sampler is live, it is bound to the new
      atlas and published, and the previous sampler has been destroyed. */
  lemma AddVolumeSingleSampler(s: Scene, atlas: int, vmin: Float3, vmax: Float3, matId: int,
                               xform: Matrix4, deep: bool, lset: bool)
    requires Inv(s) && 0 <= matId < |s.mats|
    ensures var s' := AddVolume(s, atlas, vmin, vmax, matId, xform, deep, lset);
      && s'.sampler.Some?
      && LiveSamplers(s') == {s'.sampler.value.handle}
      && s'.sampler.value.atlas == atlas
      && s'.volTexIn == Some(s'.sampler.value.handle)
      && (s.sampler.Some? ==> s.sampler.value.handle in s'.destroyed)
  {
    AddVolumeInv(s, atlas, vmin, vmax, matId, xform, deep, lset);
    LiveSamplersOfInv(AddVolume(s, atlas, vmin, vmax, matId, xform, deep, lset));
  }

  /** Two volumes over different atlases leave one live sampler, bound to
      the second atlas; the first one's sampler is destroyed. */
  lemma TwoVolumesOneSampler(s: Scene, a1: int, a2: int, vmin: Float3, vmax: Float3, matId: int,
                             xform: Matrix4, deep: bool, lset: bool)
    requires Inv(s) && 0 <= matId < |s.mats|
    ensures var s1 := AddVolume(s, a1, vmin, vmax, matId, xform, deep, lset);
      var s2 := AddVolume(s1, a2, vmin, vmax, matId, xform, deep, lset);
      && LiveSamplers(s2) == {s2.sampler.value.handle}
      && s2.sampler.value.atlas == a2
      && s1.sampler.value.handle in s2.destroyed
  {
    var s1 := AddVolume(s, a1, vmin, vmax, matId, xform, deep, lset);
    AddVolumeSingleSampler(s, a1, vmin, vmax, matId, xform, deep, lset);
    AddVolumeInv(s, a1, vmin, vmax, matId, xform, deep, lset);
    AddVolumeSingleSampler(s1, a2, vmin, vmax, matId, xform, deep, lset);
  }

  /** `ClearGraph` leaves the sampler live and published. */
  lemma ClearGraphKeepsSampler(s: Scene)
    requires Inv(s)
    ensures var s' := ClearGraph(s);
      && s'.sampler == s.sampler
      && LiveSamplers(s') == LiveSamplers(s)
  {
    ClearGraphInv(s);
    LiveSamplersOfInv(s);
    LiveSamplersOfInv(ClearGraph(s));
  }
}

=== FILE: types.dfy ===
/**
 Value types shared by the scene model: raw bytes, the opaque values the
 scene stores without interpreting (vectors, matrices, parameter blocks),
 handles of ray-tracing objects, and the fixed device-program bindings.
 */
module OptixTypes {

  newtype byte = b: int | 0 <= b < 256

  datatype Option<+T> = None | Some(value: T)

  /** A handle of an object created on the ray-tracing context: the index of
      its creation in the scene's object log. */
  type Handle = nat

  /** What kind of object a handle was created as. */
  datatype ObjectKind =
    | TopGroupObj
    | GeometryObj
    | InstanceObj
    | GroupObj
    | TransformObj
    | MaterialObj
    | SamplerObj

  /** A three-float vector as the 12 bytes a `float3` occupies in memory. */
  datatype Float3 = Float3(raw: seq<byte>)

  /** A two-float vector as the 8 bytes a `float2` occupies in memory. */
  datatype Float2 = Float2(raw: seq<byte>)

  /** An `int3` triangle index triple. */
  datatype Int3 = Int3(x: int, y: int, z: int)

  /** The 4x4 transform matrix, stored and never interpreted. */
  datatype Matrix4 = Matrix4(raw: seq<byte>)

  /** A material's opaque parameter block, laid out by a shading schema
      outside this model. */
  datatype MaterialParams = MaterialParams(raw: seq<byte>)

  /** Every byte of a block of `n` bytes is zero, as `memset(…, 0, n)` leaves it. */
  function ZeroBytes(n: nat): (r: seq<byte>)
    ensures |r| == n
    ensures forall i :: 0 <= i < n ==> r[i] == 0
  {
    if n == 0 then [] else ZeroBytes(n - 1) + [0]
  }

  /** The texcoord every vertex receives: both floats 0.0, whose bits are all zero. */
  const ZeroTexcoord: Float2 := Float2([0, 0, 0, 0, 0, 0, 0, 0])

  /** A device program, named by its PTX file and entry symbol. */
  datatype ProgramRef = ProgramRef(file: string, entry: string)

  const MeshIntersectProg := ProgramRef("optix_mesh_intersect.ptx", "mesh_intersect")
  const MeshBoundsProg := ProgramRef("optix_mesh_intersect.ptx", "mesh_bounds")
  const VolSurfaceProg := ProgramRef("optix_vol_intersect.ptx", "vol_intersect")
  const VolLevelSetProg := ProgramRef("optix_vol_intersect.ptx", "vol_levelset")
  const VolDeepProg := ProgramRef("optix_vol_intersect.ptx", "vol_deep")
  const VolBoundsProg := ProgramRef("optix_vol_intersect.ptx", "vol_bounds")
}
